=== FILE: README.md ===
# Task scheduler: date rules and task store

A Dafny model of the task lifecycle of a small Go task scheduler. A task has a date
(`YYYYMMDD` text), a title, a comment and a repeat rule. Tasks are kept in an SQLite
table `scheduler` whose id column is an AUTOINCREMENT key. The model covers:

- the `Task` record and its two rules in `main.go`:
  - `IsValid` rejects a task without a title;
  - `SetDate` normalises the date: empty becomes today, unparsable is an error, a past
    date becomes today or the task's next occurrence, and anything else is kept;
- the store operations in `tasksHandlers.go`, with the table as a map from id to row:
  `createTask`, `getTask`, `editTask`, `deleteTask`, `doneTask` and `getTasks`;
- the step order of `createTaskHandler` and `editTaskHandler`: `IsValid`, then
  `SetDate`, then the store, stopping at the first error.

Three things the Go code reads from its environment are parameters here:

- `today`, a date string that must parse. It stands for `time.Now()`.
- `nextDate`, the recurrence calculator `NextDate(now, date, repeat)`. It returns
  either a date string or an error message. Its source is not part of this model, so
  the model assumes nothing about its answers. Lemmas that need a sensible answer say
  so in their own hypothesis (`Tasks.LandsOnOrAfter`).
- The table itself, passed in and returned as a `TaskStore.Store` value. A function
  that returns `Err` leaves the table as it was.

Modules, one per file:

| file | module | models |
|---|---|---|
| results.dfy | Results | `Option` and `Result` |
| decimal.dfy | Decimal | `strconv.Atoi`, `strconv.FormatInt`, fixed-width digit strings |
| string_order.dfy | StringOrder | SQLite's BINARY collation on the stored date text, behind `ORDER BY date` |
| dates.dfy | Dates | `time.Parse` and `Time.Format` with layout `"20060102"`, and `Time.Before` |
| tasks.dfy | Tasks | `Task`, `IsValid`, `SetDate`, and the error kinds |
| store.dfy | TaskStore | the table, `createTask`, `getTask`, `editTask`, `deleteTask`, `doneTask` |
| listing.dfy | Listing | `getTasks` with `tasksLimit` |
| handlers.dfy | Handlers | the create and edit pipelines |
| scenarios.dfy | Scenarios | worked cases of the date rules on literal dates |

Behaviours of the code a reader might not expect:

- `editTask` on an id at or below `MAX(id)` with no row reports success and writes
  nothing, unlike `getTaskHandler`, which answers a missing id with "no task with this id".
- `editTask` fails on an empty table, because `MAX(id)` is NULL and the scan fails.
  It fails before the id is even parsed.
- In the past-date branch without a rule, `SetDate` returns today's date as its
  message, not `""`.
- Neither `IsValid` nor `SetDate` checks the syntax of the repeat rule. `SetDate` passes
  a non-empty rule to `NextDate` only when the date is in the past; `doneTask` passes it
  whatever the date.

## Model

| member | source | states |
|---|---|---|
| Decimal.Atoi | tasksHandlers.go:244-247 | text is accepted only as an optional `+` or `-` followed by at least one digit, with the signed decimal value of those digits, and only inside the int64 range (so a lone sign and an overflowing number are refused); every such text inside the range is accepted |
| Decimal.IntToString | tasksHandlers.go:127-131 | the id text a scan writes is non-empty, starts with `-` exactly for a negative id, and is otherwise digits with no leading zero (for any id, negative or not) |
| Decimal.Digits | main.go:34 | a number below 10^width is written as exactly `width` digits whose value is that number (Format's zero padding) |
| Decimal.NatToString | tasksHandlers.go:131 | a scanned id is written as a non-empty run of digits with no leading zero |
| Decimal.AtoiOfIntToString | tasksHandlers.go:127-131 | the id text a row scan produces for any int64 reads back through Atoi as the same id |
| StringOrder.LessTrichotomy | tasksHandlers.go:191 | the string order used by ORDER BY date is total: two dates are equal or one comes first |
| StringOrder.LessTransitive | tasksHandlers.go:191 | the string order used by ORDER BY date is transitive |
| StringOrder.LessDigits | settings.go:10 | on equal-length digit strings, the string order is the numeric order |
| Dates.DaysInMonth | main.go:40 | month lengths are 28 to 31, and 29 exactly for February of a Gregorian leap year |
| Dates.YearLength | main.go:40 | the twelve month lengths add up to 366 days in a Gregorian leap year and 365 otherwise |
| Dates.ParseDate | main.go:40-43 | a parsed date came from exactly 8 characters and is a real calendar day in years 0000 to 9999 |
| Dates.FormatDate | main.go:34 | Format with the layout writes 8 digits |
| Dates.ParseFormat | main.go:34-40 | parsing the text Format writes for a calendar date gives that date back |
| Dates.FormatParse | settings.go:10 | every accepted text is the one Format would write for its date, so each date has one spelling |
| Dates.CalendarBefore | main.go:47 | `Time.Before` on two midnights: a date is before another exactly when the number its `YYYYMMDD` text spells is smaller, and never before itself |
| Dates.BeforeIsStringOrder | main.go:47 | for two valid dates, being earlier in the calendar is the same as being smaller as a string |
| Dates.SameDateIsSameString | main.go:40-47 | two valid date texts denote the same day exactly when they are the same text |
| Tasks.IsValid | main.go:66-71 | the result is (false, "no title") exactly when the title is empty, and (true, "") exactly when it is not |
| Tasks.SetDate | main.go:31-64 | SetDate changes only the date, never the id, title, comment or repeat; on failure the task is unchanged |
| Tasks.SetDateEmptyDate | main.go:34-38 | an empty date becomes today, with success and an empty message |
| Tasks.SetDateRejectsUnparsable | main.go:40-43 | a non-empty date that is not a calendar date in the layout fails as unparsable and leaves the task unchanged |
| Tasks.SetDateKeepsCurrentDate | main.go:47-63 | a valid date that is not smaller than today as a string leaves the task unchanged, with success and an empty message |
| Tasks.SetDatePastWithoutRule | main.go:47-52 | a date smaller than today without a rule becomes today, and today is also the message |
| Tasks.SetDatePastWithRule | main.go:53-61 | a past date with a rule takes the calculator's answer with an empty message, or fails with the calculator's error text and leaves the task unchanged |
| Tasks.SetDateFailsIff | main.go:40-61 | SetDate fails exactly for an unparsable non-empty date, or for a past recurring date the calculator rejects |
| Tasks.SetDateLeavesPendingDate | main.go:31-64 | after success the date is a valid date not before today, for any calculator whose answer is such a date whenever `SetDate` asks it (a recurring task with a valid past date) |
| Tasks.SetDateIdempotent | main.go:31-64 | a second call with the same today changes nothing and reports success with an empty message, given a calculator answer not in the past whenever `SetDate` asks it |
| Tasks.SetDateIdempotentWithoutCalculator | main.go:34-63 | for any calculator, a task that `SetDate` does not send to it (empty date, no rule, or a date not in the past) is unchanged by a second call |
| TaskStore.MaxKeyExists | tasksHandlers.go:237 | a non-empty table has a largest id |
| TaskStore.MaxKey | tasksHandlers.go:237-243 | MAX(id) on a non-empty table is an id of the table no smaller than any other |
| TaskStore.NextRowId | main.go:81 | the AUTOINCREMENT id is above the counter and above every id present |
| TaskStore.CreateTask | tasksHandlers.go:50-65 | an insert adds exactly one row, under a fresh id, holding the task's date, title, comment and repeat, with other rows untouched; it fails only when the ids are used up |
| TaskStore.GetTask | tasksHandlers.go:119-140 | a task is found exactly when its id is in the table, and it carries that row's fields |
| TaskStore.GetTaskIdRoundTrip | tasksHandlers.go:127-136 | the id text of a found task reads back through Atoi as the row's id |
| TaskStore.EditTask | tasksHandlers.go:230-264 | the edit fails on an empty table, then on an unparsable id, then on an id above every stored id; otherwise it overwrites that row's four columns if the row exists, changes nothing else, and keeps the key set |
| TaskStore.DeleteTask | tasksHandlers.go:322-337 | delete removes that id and keeps every other row and the counter |
| TaskStore.DeleteAbsentIsNoOp | tasksHandlers.go:329-336 | deleting an absent id changes nothing, and deleting twice is the same as deleting once |
| TaskStore.DoneTaskAsWritten | tasksHandlers.go:369-402 | the code as written dereferences nil exactly when the id has no row |
| TaskStore.DoneTask | tasksHandlers.go:369-402 | completing a missing id is an error; success never adds rows and keeps the counter |
| TaskStore.DoneWithoutRuleRemovesRow | tasksHandlers.go:380-386 | completing a task without a rule removes that row and nothing else |
| TaskStore.DoneWithRuleRedates | tasksHandlers.go:387-399 | completing a recurring task sets only that row's date to the calculator's answer, or fails with the calculator's error and writes nothing |
| TaskStore.DoneTaskMatchesAsWritten | tasksHandlers.go:376-401 | wherever the code as written does not panic, the corrected completion has the same result |
| TaskStore.DoneOnMissingIdPanics | tasksHandlers.go:376-380 | on an empty table, completing id 1 panics as written and is reported as a missing task when corrected |
| TaskStore.CreateThenGet | tasksHandlers.go:50-140 | reading back the inserted id gives the task's fields, under an id text that parses back to that id |
| TaskStore.CreateThenDelete | tasksHandlers.go:50-65 | deleting the row just inserted gives back the previous rows |
| TaskStore.EditThenGet | tasksHandlers.go:252-263 | editing an existing row and reading it back gives the edited fields |
| TaskStore.OperationsPreserveWf | main.go:81 | insert, edit, delete and complete keep the AUTOINCREMENT invariant: ids are positive and not above the counter |
| Listing.FirstExists | tasksHandlers.go:191 | every non-empty table has a row that the listing order puts first |
| Listing.ListedAntisymmetric | tasksHandlers.go:191 | no two different rows precede each other in the listing order |
| Listing.ListedIds | tasksHandlers.go:191-208 | the listing has min(limit, rows) distinct ids of the table, in order, and no row left out comes before a listed row |
| Listing.GetTasks | tasksHandlers.go:185-213 | at most `limit` tasks, as many as the table allows, in non-decreasing date order |
| Listing.ListedTasksAreRows | tasksHandlers.go:191-208 | each listed task is the row its id text names, and no id text appears twice |
| Listing.UnlistedRowsAreNotEarlier | tasksHandlers.go:191 | every row the limit leaves out is dated no earlier than every listed task |
| Listing.ListingIsCapped | settings.go:11 | with tasksLimit a listing holds at most 10 tasks, and all tasks when there are at most 10 |
| Handlers.HandleCreate | tasksHandlers.go:67-117 | a successful create passed validation and SetDate, and the row it adds has a title |
| Handlers.HandleEdit | tasksHandlers.go:266-320 | a successful edit passed validation and SetDate, and neither adds nor removes rows |
| Handlers.RejectedTasksNeverStored | tasksHandlers.go:82-100 | a task without a title, or one whose SetDate fails, is never inserted or written; the error is that of the first failing step |
| Handlers.CreateStoresNormalizedTask | tasksHandlers.go:82-109 | create succeeds exactly when the title is present, SetDate succeeds and ids remain; the new row holds the normalised task under a fresh id |
| Handlers.EditStoresNormalizedTask | tasksHandlers.go:284-305 | a successful edit passed validation and SetDate, and wrote the normalised task to the row its id names, and nothing else |
| Handlers.StoredDatesArePending | tasksHandlers.go:91-101 | a row written by create or edit has a valid date not before today, for any calculator whose answer is such a date whenever `SetDate` asks it |
| Handlers.HandlersKeepTitles | tasksHandlers.go:284-305 | create, edit, delete and complete keep every stored row titled |
| Scenarios.LeapDayParsesOnlyInLeapYears | main.go:40-43 | "20240229" parses as 29 February 2024; "20230229", "20241301" and a seven-character date do not parse |
| Scenarios.ThirtyDayMonthEndsOnThirtieth | main.go:40-43 | "20240430" parses as 30 April 2024 and "20240431" does not parse |
| Scenarios.PastOneOffMovesToToday | main.go:47-52 | a one-off task dated 20240101 with today 20240615 moves to 20240615, with message "20240615" |
| Scenarios.PastRecurringTakesAnswer | main.go:53-60 | a recurring task dated 20240101 with today 20240110 takes the calculator's answer 20240115, with an empty message |
| Scenarios.MissingDayIsRefused | main.go:40-43 | a task dated 20230229 is refused as unparsable and left unchanged, even with a rule |
| Scenarios.FutureDateIsKept | main.go:47-63 | a task dated 20241231 with today 20240615 is kept unchanged, with an empty message |

## Left out

- The HTTP layer is not modelled: handlers' request reading, `sendJson`, JSON
  decoding, status codes, `taskHandler` dispatch, server.go routing and static files.
  It is transport only.
- The handlers' own `strconv.Atoi` of the query parameter is not modelled as a step,
  but `Decimal.Atoi` is the same function.
- SQL and driver details are not modelled: `sql.Open`, `CreateDB`, `OpenDB`, and
  driver or disk errors other than an exhausted AUTOINCREMENT. The misspelled table
  name in the index statement at main.go:92 only makes index creation fail silently,
  which changes no row.
- `NextDate` and `nextDateHandler` are not part of this model. The calculator is the
  parameter `nextDate`, and no day, week, month or year rule is assumed of it.
- The wall clock and time zones are not modelled. `SetDate` formats today in local
  time but compares against midnight UTC. The model uses one `today` for both, and
  passes it as the calculator's `now`.
- Process configuration in `main` is not modelled, including the literal
  `"TODO_DBFILE"` path join at main.go:124.
- The text of `time.Parse` errors is not modelled. `SetDate` reports
  `UnparsableDate(date)` where the program forwards Go's message.
- Tasks.SetDate: the date is valid after a successful `SetDate` only if the calculator
  answers with a valid date. The model states this under that hypothesis
  (`SetDateLeavesPendingDate`) instead of assuming it.
- Dates.FormatDate: requires a year from 0 to 9999. Go writes wider years with more
  digits, which the 8-character layout cannot hold.
- TaskStore.EditTask: the row is chosen by the value `Atoi` reads from the id text.
  SQLite compares the bound text with the INTEGER column after numeric conversion.
  The model does not separate the two for spellings such as a leading `+`.
- Each store operation is modelled as one atomic step on a `Store` value, and no
  interleaving of requests is modelled. In the code, `editTask` reads `MAX(id)` and then
  runs its `UPDATE` as separate statements, and `doneTask` reads the row and then deletes
  or updates it on separate connections without a transaction, so a concurrent edit
  between the two can be overwritten with a date computed from the old row.
- Listing.GetTasks: SQL leaves the order of rows with equal dates open. The model lists
  them by ascending id, and its contracts promise only the date order.

## Findings

| source | as written | input that shows it | evidently intended | confidence | as-written member | corrected member |
|---|---|---|---|---|---|---|
| tasksHandlers.go:376-380 | `getTask` answers a missing id with a nil task and no error, and `doneTask` then reads `task.Repeat` | complete id 1 on an empty table | report the missing task as an error, as `getTaskHandler` does with "no task with this id" | high; not executed | TaskStore.DoneTaskAsWritten | TaskStore.DoneTask |

=== FILE: dates.dfy ===
/**
 Dates in the layout `"20060102"` (`dataFormat`, settings.go): four-digit year,
 two-digit month, two-digit day. `ParseDate` is Go's `time.Parse` with that layout,
 `FormatDate` is `Time.Format` with it, and `CalendarBefore` is `Time.Before` on two
 dates that both fall at midnight.
 */
module Dates {
  import opened Results
  import opened Decimal
  import StringOrder

  datatype CalendarDate = CalendarDate(year: int, month: int, day: int)

  /** The proleptic Gregorian leap rule Go's `time` package uses. */
  predicate IsLeap(year: int) {
    year % 4 == 0 && (year % 100 != 0 || year % 400 == 0)
  }

  function DaysInMonth(year: int, month: int): (n: int)
    requires 1 <= month <= 12
    ensures 28 <= n <= 31
    ensures n == 29 <==> month == 2 && IsLeap(year)
  {
    if month == 2 then (if IsLeap(year) then 29 else 28)
    else if month == 4 || month == 6 || month == 9 || month == 11 then 30
    else 31
  }

  /** The twelve months add up to the length of the year: 366 days in a leap year, 365 otherwise. */
  lemma YearLength(y: int)
    ensures DaysInMonth(y, 1) + DaysInMonth(y, 2) + DaysInMonth(y, 3) + DaysInMonth(y, 4)
      + DaysInMonth(y, 5) + DaysInMonth(y, 6) + DaysInMonth(y, 7) + DaysInMonth(y, 8)
      + DaysInMonth(y, 9) + DaysInMonth(y, 10) + DaysInMonth(y, 11) + DaysInMonth(y, 12)
      == if IsLeap(y) then 366 else 365
  {
  }

  /** A month from 1 to 12 and a day that exists in that month of that year. */
  predicate IsCalendarDate(d: CalendarDate) {
    1 <= d.month <= 12 && 1 <= d.day <= DaysInMonth(d.year, d.month)
  }

  /**
   `time.Parse("20060102", s)`: exactly eight ASCII digits, a month in range and a day
   that exists in that month; anything else is a parse error.
   */
  function ParseDate(s: string): (r: Option<CalendarDate>)
    ensures r.Some? ==> |s| == 8 && IsCalendarDate(r.value) && 0 <= r.value.year <= 9999
  {
    if |s| != 8 || !AllDigits(s) then None
    else
      assert AllDigits(s[..4]) && AllDigits(s[4..6]) && AllDigits(s[6..]);
      ValueBound(s[..4]);
      var d := CalendarDate(Value(s[..4]), Value(s[4..6]), Value(s[6..]));
      if IsCalendarDate(d) then Some(d) else None
  }

  predicate ValidDate(s: string) {
    ParseDate(s).Some?
  }

  /** `Time.Format("20060102")` for a year that fits in four digits. */
  function FormatDate(d: CalendarDate): (s: string)
    requires 0 <= d.year < 10000 && 0 <= d.month < 100 && 0 <= d.day < 100
    ensures |s| == 8 && AllDigits(s)
  {
    Digits(d.year, 4) + Digits(d.month, 2) + Digits(d.day, 2)
  }

  /** The date as the number its `YYYYMMDD` text spells. */
  function DayNumber(d: CalendarDate): int {
    d.year * 10000 + d.month * 100 + d.day
  }

  /** Calendar order: `Time.Before` on two dates parsed to midnight. */
  predicate CalendarBefore(a: CalendarDate, b: CalendarDate): (r: bool)
    ensures r ==> a != b
    ensures 0 <= a.month < 100 && 0 <= a.day < 100 && 0 <= b.month < 100 && 0 <= b.day < 100 ==>
      (r <==> DayNumber(a) < DayNumber(b))
  {
    || a.year < b.year
    || (a.year == b.year && a.month < b.month)
    || (a.year == b.year && a.month == b.month && a.day < b.day)
  }

  /** The fields of an 8-character text split as 4 + 2 + 2 are the pieces it was joined from. */
  lemma FieldsOfJoin(y: string, m: string, dd: string)
    requires |y| == 4 && |m| == 2 && |dd| == 2
    ensures var s := y + m + dd; s[..4] == y && s[4..6] == m && s[6..] == dd
  {
  }

  /** Eight digits whose three fields spell a calendar date parse as that date. */
  lemma ParseOfFields(s: string, d: CalendarDate)
    requires |s| == 8 && AllDigits(s) && IsCalendarDate(d)
    requires AllDigits(s[..4]) && AllDigits(s[4..6]) && AllDigits(s[6..])
    requires Value(s[..4]) == d.year && Value(s[4..6]) == d.month && Value(s[6..]) == d.day
    ensures ParseDate(s) == Some(d)
  {
  }

  /** Parsing a formatted calendar date gives the date back. */
  lemma ParseFormat(d: CalendarDate)
    requires IsCalendarDate(d) && 0 <= d.year < 10000
    ensures ParseDate(FormatDate(d)) == Some(d)
  {
    var s := FormatDate(d);
    assert AllDigits(s[..4]) && AllDigits(s[4..6]) && AllDigits(s[6..])
      && Value(s[..4]) == d.year && Value(s[4..6]) == d.month && Value(s[6..]) == d.day
    by {
      var y, m, dd := Digits(d.year, 4), Digits(d.month, 2), Digits(d.day, 2);
      assert s == y + m + dd;
      FieldsOfJoin(y, m, dd);
    }
    ParseOfFields(s, d);
  }

  /** Formatting a parsed date gives the original text back: the layout has one spelling per date. */
  lemma FormatParse(s: string)
    requires ValidDate(s)
    ensures FormatDate(ParseDate(s).value) == s
  {
    var y, m, d := s[..4], s[4..6], s[6..];
    FieldsOfValid(s);
    DigitsOfValue(y);
    DigitsOfValue(m);
    DigitsOfValue(d);
    assert s == y + m + d;
  }

  /** A valid date text is three digit fields whose values are the parsed date. */
  lemma FieldsOfValid(s: string)
    requires ValidDate(s)
    ensures |s| == 8 && AllDigits(s[..4]) && AllDigits(s[4..6]) && AllDigits(s[6..])
    ensures ParseDate(s).value == CalendarDate(Value(s[..4]), Value(s[4..6]), Value(s[6..]))
  {
    assert AllDigits(s);
  }

  /**
   For dates in the layout, being earlier in the calendar is being smaller as a
   string; this is why the program may order and compare the stored text directly.
   */
  lemma BeforeIsStringOrder(a: string, b: string)
    requires ValidDate(a) && ValidDate(b)
    ensures CalendarBefore(ParseDate(a).value, ParseDate(b).value) <==> StringOrder.Less(a, b)
  {
    var ya, ma, da := a[..4], a[4..6], a[6..];
    var yb, mb, db := b[..4], b[4..6], b[6..];
    FieldsOfValid(a);
    FieldsOfValid(b);
    assert a == ya + (ma + da) && b == yb + (mb + db);
    StringOrder.LessConcat(ya, ma + da, yb, mb + db);
    StringOrder.LessConcat(ma, da, mb, db);
    StringOrder.LessDigits(ya, yb);
    StringOrder.LessDigits(ma, mb);
    StringOrder.LessDigits(da, db);
    StringOrder.DigitsEqual(ya, yb);
    StringOrder.DigitsEqual(ma, mb);
  }

  /** Two dates in the layout are the same date exactly when they are the same text. */
  lemma SameDateIsSameString(a: string, b: string)
    requires ValidDate(a) && ValidDate(b)
    ensures ParseDate(a).value == ParseDate(b).value <==> a == b
  {
    if ParseDate(a).value == ParseDate(b).value {
      FormatParse(a);
      FormatParse(b);
    }
  }
}

=== FILE: decimal.dfy ===
/**
 Decimal integers as text: `strconv.Atoi`, which the handlers use to read task ids,
 and `strconv.FormatInt(n, 10)`, which `database/sql` uses when an INTEGER column is
 scanned into the string field `Task.ID`. Also the fixed-width digit strings of the
 date layout.
 */
module Decimal {
  import opened Results

  const MinInt64: int := -0x8000_0000_0000_0000
  const MaxInt64: int := 0x7fff_ffff_ffff_ffff

  predicate IsDigit(c: char) {
    '0' <= c <= '9'
  }

  predicate AllDigits(s: string) {
    forall i :: 0 <= i < |s| ==> IsDigit(s[i])
  }

  function DigitValue(c: char): (d: nat)
    requires IsDigit(c)
    ensures d < 10
  {
    c as int - '0' as int
  }

  function DigitChar(d: nat): (c: char)
    requires d < 10
    ensures IsDigit(c) && DigitValue(c) == d
  {
    ('0' as int + d) as char
  }

  function Pow10(n: nat): (p: nat)
    ensures p >= 1
  {
    if n == 0 then 1 else 10 * Pow10(n - 1)
  }

  /** The number a string of decimal digits denotes, most significant digit first. */
  function Value(s: string): nat
    requires AllDigits(s)
  {
    if |s| == 0 then 0 else 10 * Value(s[..|s| - 1]) + DigitValue(s[|s| - 1])
  }

  /** `n` written with exactly `width` digits, zero-padded on the left. */
  function Digits(n: nat, width: nat): (s: string)
    requires n < Pow10(width)
    ensures |s| == width && AllDigits(s)
    ensures Value(s) == n
    decreases width
  {
    if width == 0 then []
    else
      var prefix := Digits(n / 10, width - 1);
      var s := prefix + [DigitChar(n % 10)];
      assert s[..|s| - 1] == prefix;
      s
  }

  /** `n` in the shortest decimal form, as `strconv.FormatUint(n, 10)` writes it. */
  function NatToString(n: nat): (s: string)
    ensures |s| > 0 && AllDigits(s)
    ensures |s| > 1 ==> s[0] != '0'
  {
    if n < 10 then [DigitChar(n)] else NatToString(n / 10) + [DigitChar(n % 10)]
  }

  /** `strconv.FormatInt(n, 10)`: a minus sign for negative numbers, then the digits. */
  function IntToString(n: int): (s: string)
    ensures |s| > 0 && (s[0] == '-' <==> n < 0)
    ensures n < 0 ==> |s| > 1 && AllDigits(s[1..]) && s[1] != '0'
    ensures n >= 0 ==> AllDigits(s) && (|s| > 1 ==> s[0] != '0')
  {
    if n < 0 then "-" + NatToString(-n) else NatToString(n)
  }

  /**
   `strconv.Atoi` on a 64-bit platform: an optional `+` or `-`, then at least one
   decimal digit and nothing else; a value outside the int64 range is an error.
   */
  function Atoi(s: string): (r: Option<int>)
    ensures r.Some? ==> MinInt64 <= r.value <= MaxInt64
    ensures r.Some? ==> |s| > 0
    ensures r.Some? ==> forall i :: 0 <= i < |s| ==> IsDigit(s[i]) || (i == 0 && (s[i] == '+' || s[i] == '-'))
    ensures r.Some? ==> (
      && |s| > 0
      && var digits := if s[0] == '+' || s[0] == '-' then s[1..] else s;
         && |digits| > 0 && AllDigits(digits)
         && r.value == if s[0] == '-' then -(Value(digits) as int) else Value(digits))
    ensures |s| > 0 && AllDigits(s) && Value(s) <= MaxInt64 ==> r == Some(Value(s))
    ensures |s| > 1 && s[0] == '+' && AllDigits(s[1..]) && Value(s[1..]) <= MaxInt64 ==> r == Some(Value(s[1..]))
    ensures |s| > 1 && s[0] == '-' && AllDigits(s[1..]) && Value(s[1..]) <= -MinInt64 ==> r == Some(-(Value(s[1..]) as int))
  {
    var signed := |s| > 0 && (s[0] == '+' || s[0] == '-');
    var digits := if signed then s[1..] else s;
    if |digits| == 0 || !AllDigits(digits) then None
    else
      var magnitude: int := Value(digits);
      var v := if signed && s[0] == '-' then -magnitude else magnitude;
      if MinInt64 <= v <= MaxInt64 then Some(v) else None
  }

  /** The value of a string of digits is smaller than 10^|s|. */
  lemma {:induction false} ValueBound(s: string)
    requires AllDigits(s)
    ensures Value(s) < Pow10(|s|)
  {
    if |s| > 0 {
      ValueBound(s[..|s| - 1]);
    }
  }

  /** Reading a digit string and writing it back at the same width gives the string back. */
  lemma {:induction false} DigitsOfValue(s: string)
    requires AllDigits(s)
    ensures Value(s) < Pow10(|s|) && Digits(Value(s), |s|) == s
  {
    ValueBound(s);
    if |s| > 0 {
      var prefix := s[..|s| - 1];
      var last := s[|s| - 1];
      DigitsOfValue(prefix);
      var v := Value(s);
      assert v == 10 * Value(prefix) + DigitValue(last);
      assert v / 10 == Value(prefix) && v % 10 == DigitValue(last);
      assert DigitChar(DigitValue(last)) == last;
      assert s == prefix + [last];
    }
  }

  lemma {:induction false} ValueOfNatToString(n: nat)
    ensures Value(NatToString(n)) == n
  {
    var s := NatToString(n);
    if n >= 10 {
      ValueOfNatToString(n / 10);
      assert s[..|s| - 1] == NatToString(n / 10);
    }
  }

  /** `Atoi` reads back every int64 that `IntToString` writes. */
  lemma AtoiOfIntToString(n: int)
    requires MinInt64 <= n <= MaxInt64
    ensures Atoi(IntToString(n)) == Some(n)
  {
    if n < 0 {
      ValueOfNatToString(-n);
      assert IntToString(n)[1..] == NatToString(-n);
    } else {
      ValueOfNatToString(n);
    }
  }
}

=== FILE: handlers.dfy ===
/**
 The order of steps in `createTaskHandler` and `editTaskHandler`, without HTTP:
 `IsValid`, then `SetDate`, then the store operation, stopping at the first error.
 */
module Handlers {
  import opened Results
  import opened Decimal
  import opened Dates
  import StringOrder
  import opened Tasks
  import opened TaskStore

  /** `createTaskHandler`: validate, normalise the date, insert. */
  function HandleCreate(s: Store, t: Task, today: string, nextDate: NextDateFn): (r: Result<Inserted, Error>)
    requires ValidDate(today)
    ensures r.Ok? ==> t.title != "" && SetDate(t, today, nextDate).outcome.Success?
    ensures r.Ok? ==> r.value.id in r.value.store.rows && r.value.store.rows[r.value.id].title != ""
  {
    if !IsValid(t).0 then Err(NoTitle)
    else
      var normalized := SetDate(t, today, nextDate);
      match normalized.outcome
      case Failure(e) => Err(e)
      case Success(_) => CreateTask(s, normalized.task)
  }

  /** `editTaskHandler`: validate, normalise the date, overwrite. */
  function HandleEdit(s: Store, t: Task, today: string, nextDate: NextDateFn): (r: Result<Store, Error>)
    requires ValidDate(today)
    ensures r.Ok? ==> t.title != "" && SetDate(t, today, nextDate).outcome.Success?
    ensures r.Ok? ==> r.value.rows.Keys == s.rows.Keys && r.value.sequence == s.sequence
  {
    if !IsValid(t).0 then Err(NoTitle)
    else
      var normalized := SetDate(t, today, nextDate);
      match normalized.outcome
      case Failure(e) => Err(e)
      case Success(_) => EditTask(s, normalized.task)
  }

  /** A task without a title, or one whose date `SetDate` rejects, is never inserted or written. */
  lemma RejectedTasksNeverStored(s: Store, t: Task, today: string, nextDate: NextDateFn)
    requires ValidDate(today)
    ensures t.title == "" ==> HandleCreate(s, t, today, nextDate) == Err(NoTitle)
    ensures t.title == "" ==> HandleEdit(s, t, today, nextDate) == Err(NoTitle)
    ensures var d := SetDate(t, today, nextDate);
      t.title != "" && d.outcome.Failure? ==>
        && HandleCreate(s, t, today, nextDate) == Err(d.outcome.error)
        && HandleEdit(s, t, today, nextDate) == Err(d.outcome.error)
  {
  }

  /**
   A create succeeds exactly when the title is present, `SetDate` succeeds and the
   table has ids left; the new row then holds the normalised task under a fresh id
   and no other row changes.
   */
  lemma CreateStoresNormalizedTask(s: Store, t: Task, today: string, nextDate: NextDateFn)
    requires ValidDate(today)
    ensures var d := SetDate(t, today, nextDate);
      HandleCreate(s, t, today, nextDate).Ok? <==>
        t.title != "" && d.outcome.Success? && CreateTask(s, d.task).Ok?
    ensures var r := HandleCreate(s, t, today, nextDate);
      r.Ok? ==>
        var (s', id) := (r.value.store, r.value.id);
        && id !in s.rows
        && s'.rows.Keys == s.rows.Keys + {id}
        && s'.rows[id] == Row(SetDate(t, today, nextDate).task.date, t.title, t.comment, t.repeat)
        && s'.rows[id].title != ""
        && (forall k :: k in s.rows ==> s'.rows[k] == s.rows[k])
  {
  }

  /**
   An edit that gets past validation and `SetDate` overwrites the row the task's id
   names with the normalised task, and changes nothing else.
   */
  lemma EditStoresNormalizedTask(s: Store, t: Task, today: string, nextDate: NextDateFn)
    requires ValidDate(today)
    ensures var r := HandleEdit(s, t, today, nextDate);
      r.Ok? ==>
        && t.title != ""
        && SetDate(t, today, nextDate).outcome.Success?
        && r.value.rows.Keys == s.rows.Keys
        && r.value.sequence == s.sequence
        && (forall k :: k in s.rows ==>
              r.value.rows[k] == if Some(k) == Atoi(t.id) then RowOf(SetDate(t, today, nextDate).task) else s.rows[k])
  {
  }

  /**
   A row written by create or edit is due today or later, as long as the calculator
   answered this task with such a date whenever `SetDate` asked it.
   */
  lemma StoredDatesArePending(s: Store, t: Task, today: string, nextDate: NextDateFn)
    requires ValidDate(today)
    requires AsksCalculator(t, today) ==> LandsOnOrAfter(nextDate(today, t.date, t.repeat), today)
    ensures var r := HandleCreate(s, t, today, nextDate);
      r.Ok? ==>
        && ValidDate(r.value.store.rows[r.value.id].date)
        && !StringOrder.Less(r.value.store.rows[r.value.id].date, today)
    ensures var r := HandleEdit(s, t, today, nextDate);
      forall k :: r.Ok? && Atoi(t.id) == Some(k) && k in s.rows ==>
        ValidDate(r.value.rows[k].date) && !StringOrder.Less(r.value.rows[k].date, today)
  {
    SetDateLeavesPendingDate(t, today, nextDate);
  }

  /** Every row of the table has a title. */
  predicate AllTitled(s: Store) {
    forall k :: k in s.rows ==> s.rows[k].title != ""
  }

  /** The handlers and `doneTask` keep every stored row titled. */
  lemma HandlersKeepTitles(s: Store, t: Task, id: int, today: string, nextDate: NextDateFn)
    requires ValidDate(today) && AllTitled(s)
    ensures HandleCreate(s, t, today, nextDate).Ok? ==> AllTitled(HandleCreate(s, t, today, nextDate).value.store)
    ensures HandleEdit(s, t, today, nextDate).Ok? ==> AllTitled(HandleEdit(s, t, today, nextDate).value)
    ensures AllTitled(DeleteTask(s, id))
    ensures DoneTask(s, id, today, nextDate).Ok? ==> AllTitled(DoneTask(s, id, today, nextDate).value)
  {
  }
}

=== FILE: listing.dfy ===
/**
 `getTasks`: `SELECT ... FROM scheduler ORDER BY date LIMIT ?`, called with
 `tasksLimit` (settings.go). SQL leaves the order of rows with equal dates open; the
 model lists them by id.
 */
module Listing {
  import opened Results
  import opened Decimal
  import StringOrder
  import opened Tasks
  import opened TaskStore

  /** `tasksLimit`: the most rows one listing returns. */
  const TasksLimit: nat := 10

  /** The listing order: by date text, and rows with the same date by id. */
  predicate ListedBefore(rows: map<int, Row>, i: int, j: int)
    requires i in rows && j in rows
  {
    StringOrder.Less(rows[i].date, rows[j].date) || (rows[i].date == rows[j].date && i <= j)
  }

  lemma ListedTotal(rows: map<int, Row>, i: int, j: int)
    requires i in rows && j in rows
    ensures ListedBefore(rows, i, j) || ListedBefore(rows, j, i)
  {
    StringOrder.LessTrichotomy(rows[i].date, rows[j].date);
  }

  lemma ListedTransitive(rows: map<int, Row>, i: int, j: int, k: int)
    requires i in rows && j in rows && k in rows
    requires ListedBefore(rows, i, j) && ListedBefore(rows, j, k)
    ensures ListedBefore(rows, i, k)
  {
    if StringOrder.Less(rows[i].date, rows[j].date) && StringOrder.Less(rows[j].date, rows[k].date) {
      StringOrder.LessTransitive(rows[i].date, rows[j].date, rows[k].date);
    }
  }

  /** No two different rows precede each other. */
  lemma ListedAntisymmetric(rows: map<int, Row>)
    ensures forall i, j :: i in rows && j in rows && ListedBefore(rows, i, j) && ListedBefore(rows, j, i) ==> i == j
  {
    forall i, j | i in rows && j in rows && ListedBefore(rows, i, j) && ListedBefore(rows, j, i)
      ensures i == j
    {
      StringOrder.LessIrreflexive(rows[i].date);
      if StringOrder.Less(rows[i].date, rows[j].date) {
        StringOrder.LessAsymmetric(rows[i].date, rows[j].date);
      }
    }
  }

  /** `k` is the row the listing puts before every other. */
  predicate IsFirst(rows: map<int, Row>, k: int) {
    k in rows && forall j :: j in rows ==> ListedBefore(rows, k, j)
  }

  lemma {:induction false} FirstExists(rows: map<int, Row>)
    requires rows != map[]
    ensures exists k :: IsFirst(rows, k)
    decreases rows.Keys
  {
    HasMember(rows.Keys);
    var x :| x in rows;
    var rest := rows - {x};
    if rows.Keys == {x} {
      assert IsFirst(rows, x);
    } else {
      // A second key exists; the explicit test gives the `:|` below its witness.
      if forall y :: y in rows ==> y == x {
        assert false;
      }
      var y :| y in rows && y != x;
      assert y in rest;
      FirstExists(rest);
      var k :| IsFirst(rest, k);
      ListedTotal(rows, x, k);
      forall j | j in rest
        ensures ListedBefore(rows, k, j)
      {
        assert ListedBefore(rest, k, j);
      }
      if ListedBefore(rows, x, k) {
        forall j | j in rows
          ensures ListedBefore(rows, x, j)
        {
          if j != x {
            assert j in rest;
            ListedTransitive(rows, x, k, j);
          }
        }
        assert IsFirst(rows, x);
      } else {
        forall j | j in rows
          ensures ListedBefore(rows, k, j)
        {
          if j != x {
            assert j in rest;
          }
        }
        assert IsFirst(rows, k);
      }
    }
  }

  /** The row a listing of `rows` starts with. */
  function First(rows: map<int, Row>): (k: int)
    requires rows != map[]
    ensures IsFirst(rows, k)
  {
    FirstExists(rows);
    ListedAntisymmetric(rows);
    var k :| IsFirst(rows, k);
    k
  }

  /**
   The ids `ORDER BY date LIMIT limit` returns: as many as the limit and the table
   allow, each once, in listing order, and no row left out precedes a row listed.
   */
  function ListedIds(rows: map<int, Row>, limit: nat): (r: seq<int>)
    ensures |r| == if limit < |rows| then limit else |rows|
    ensures forall i :: 0 <= i < |r| ==> r[i] in rows
    ensures forall i, j :: 0 <= i < j < |r| ==> r[i] != r[j]
    ensures forall i, j :: 0 <= i < j < |r| ==> ListedBefore(rows, r[i], r[j])
    ensures forall i, k :: 0 <= i < |r| && k in rows && k !in r ==> ListedBefore(rows, r[i], k)
    decreases limit
  {
    if limit == 0 || rows == map[] then []
    else
      var k := First(rows);
      var rest := rows - {k};
      assert rest.Keys == rows.Keys - {k};
      [k] + ListedIds(rest, limit - 1)
  }

  /** `getTasks(limit)`: the earliest rows as tasks, at most `limit` of them, by date. */
  function GetTasks(s: Store, limit: nat): (r: seq<Task>)
    ensures |r| == if limit < |s.rows| then limit else |s.rows|
    ensures forall i, j :: 0 <= i < j < |r| ==> StringOrder.LessEq(r[i].date, r[j].date)
  {
    var ids := ListedIds(s.rows, limit);
    seq(|ids|, i requires 0 <= i < |ids| => TaskOf(ids[i], s.rows[ids[i]]))
  }

  /** Each listed task is the row stored under the id its text names, and no id text repeats. */
  lemma ListedTasksAreRows(s: Store, limit: nat)
    requires Wf(s)
    ensures var r := GetTasks(s, limit);
      var ids := ListedIds(s.rows, limit);
      && (forall i :: 0 <= i < |r| ==> Atoi(r[i].id) == Some(ids[i]) && ids[i] in s.rows && RowOf(r[i]) == s.rows[ids[i]])
      && (forall i, j :: 0 <= i < j < |r| ==> r[i].id != r[j].id)
  {
    var r := GetTasks(s, limit);
    var ids := ListedIds(s.rows, limit);
    forall i | 0 <= i < |r|
      ensures Atoi(r[i].id) == Some(ids[i])
    {
      AtoiOfIntToString(ids[i]);
    }
  }

  /** Every row the limit leaves out is dated no earlier than every listed task. */
  lemma UnlistedRowsAreNotEarlier(s: Store, limit: nat)
    ensures var r := GetTasks(s, limit);
      var ids := ListedIds(s.rows, limit);
      forall i, k :: 0 <= i < |r| && k in s.rows && k !in ids ==> StringOrder.LessEq(r[i].date, s.rows[k].date)
  {
  }

  /** With the program's limit a listing never holds more than ten tasks. */
  lemma ListingIsCapped(s: Store)
    ensures |GetTasks(s, TasksLimit)| <= 10
    ensures |s.rows| <= 10 ==> |GetTasks(s, TasksLimit)| == |s.rows|
  {
  }
}

=== FILE: results.dfy ===
/** The two failure-carrying shapes the model uses in place of Go's `(value, error)` pairs. */
module Results {

  /** A value that may be absent, such as a row that `getTask` does not find. */
  datatype Option<+T> = None | Some(value: T)

  /** Either a value or the error that stopped the computation. */
  datatype Result<+T, +E> = Ok(value: T) | Err(error: E)
}

=== FILE: scenarios.dfy ===
/**
 Concrete cases of the date rules, worked through on literal dates. The calculator is
 a stub that returns a fixed answer: these cases show how `SetDate` uses the answer,
 not how `NextDate` computes it.
 */
module Scenarios {
  import opened Results
  import opened Decimal
  import opened Dates
  import opened Tasks

  lemma ValueOfTwo(s: string)
    requires |s| == 2 && AllDigits(s)
    ensures Value(s) == 10 * DigitValue(s[0]) + DigitValue(s[1])
  {
    var head := s[..1];
    assert head[..0] == [];
    assert Value(head) == DigitValue(s[0]);
    assert s[..|s| - 1] == head;
  }

  lemma ValueOfFour(s: string)
    requires |s| == 4 && AllDigits(s)
    ensures Value(s) == 1000 * DigitValue(s[0]) + 100 * DigitValue(s[1]) + 10 * DigitValue(s[2]) + DigitValue(s[3])
  {
    ValueOfTwo(s[..2]);
    assert s[..3][..2] == s[..2];
  }

  /** The calendar fields of an eight-digit text, read digit by digit. */
  function FieldsOf(s: string): CalendarDate
    requires |s| == 8 && AllDigits(s)
  {
    CalendarDate(
      1000 * DigitValue(s[0]) + 100 * DigitValue(s[1]) + 10 * DigitValue(s[2]) + DigitValue(s[3]),
      10 * DigitValue(s[4]) + DigitValue(s[5]),
      10 * DigitValue(s[6]) + DigitValue(s[7]))
  }

  lemma ParseEightDigits(s: string)
    requires |s| == 8 && AllDigits(s)
    ensures ParseDate(s) == if IsCalendarDate(FieldsOf(s)) then Some(FieldsOf(s)) else None
  {
    ValueOfFour(s[..4]);
    ValueOfTwo(s[4..6]);
    ValueOfTwo(s[6..]);
  }

  /** A 30-day month ends on its 30th: April 30th parses and April 31st does not. */
  lemma ThirtyDayMonthEndsOnThirtieth()
    ensures ParseDate("20240430") == Some(CalendarDate(2024, 4, 30))
    ensures ParseDate("20240431") == None
  {
    assert ParseDate("20240430") == Some(CalendarDate(2024, 4, 30)) by {
      ParseEightDigits("20240430");
    }
    ParseEightDigits("20240431");
  }

  /** A stub calculator with one fixed answer. */
  function Answer(next: string): NextDateFn {
    (now, date, repeat) => Ok(next)
  }

  /** February 29th parses in a leap year only, and month 13 never does. */
  lemma LeapDayParsesOnlyInLeapYears()
    ensures ParseDate("20240229") == Some(CalendarDate(2024, 2, 29))
    ensures ParseDate("20230229") == None
    ensures ParseDate("20241301") == None
    ensures ParseDate("2024061") == None
  {
    assert ParseDate("20240229") == Some(CalendarDate(2024, 2, 29)) by {
      ParseEightDigits("20240229");
    }
    assert ParseDate("20230229") == None by {
      ParseEightDigits("20230229");
    }
    assert ParseDate("20241301") == None by {
      ParseEightDigits("20241301");
    }
  }

  /** A one-off task dated in the past moves to today, and today comes back as the message. */
  lemma PastOneOffMovesToToday()
    ensures ValidDate("20240615")
    ensures SetDate(Task("", "20240101", "pay rent", "", ""), "20240615", Answer("unused"))
      == DateResult(Success("20240615"), Task("", "20240615", "pay rent", "", ""))
  {
    ParseEightDigits("20240101");
    ParseEightDigits("20240615");
  }

  /** A recurring task dated in the past takes the calculator's answer. */
  lemma PastRecurringTakesAnswer()
    ensures ValidDate("20240110")
    ensures SetDate(Task("7", "20240101", "standup", "", "d 7"), "20240110", Answer("20240115"))
      == DateResult(Success(""), Task("7", "20240115", "standup", "", "d 7"))
  {
    ParseEightDigits("20240101");
    ParseEightDigits("20240110");
  }

  /** A date that does not exist is refused, whatever the rule. */
  lemma MissingDayIsRefused()
    ensures ValidDate("20240615")
    ensures SetDate(Task("", "20230229", "x", "", "y"), "20240615", Answer("20250101"))
      == DateResult(Failure(UnparsableDate("20230229")), Task("", "20230229", "x", "", "y"))
  {
    assert ParseDate("20230229") == None by {
      ParseEightDigits("20230229");
    }
    assert ValidDate("20240615") by {
      ParseEightDigits("20240615");
    }
  }

  /** A date in the future is kept as it is. */
  lemma FutureDateIsKept()
    ensures ValidDate("20240615")
    ensures SetDate(Task("", "20241231", "x", "", "d 1"), "20240615", Answer("20240616"))
      == DateResult(Success(""), Task("", "20241231", "x", "", "d 1"))
  {
    ParseEightDigits("20241231");
    ParseEightDigits("20240615");
  }
}

=== FILE: store.dfy ===
/**
 The store-level operations of tasksHandlers.go with the `scheduler` table replaced by
 a map from id to row: `createTask`, `getTask`, `editTask`, `deleteTask` and
 `doneTask`. A function that returns `Err` leaves the table as it was.
 */
module TaskStore {
  import opened Results
  import opened Decimal
  import opened Tasks

  /** One row of the `scheduler` table: date, title, comment and repeat. */
  datatype Row = Row(date: string, title: string, comment: string, repeat: string)

  /**
   The table: its rows by id, and the counter SQLite keeps for an AUTOINCREMENT key
   (the largest id ever handed out, including ids of rows since deleted).
   */
  datatype Store = Store(rows: map<int, Row>, sequence: int)

  /** The table as `CreateDB` leaves it. */
  const EmptyStore: Store := Store(map[], 0)

  /** What SQLite guarantees of an AUTOINCREMENT table the program only inserts into with fresh ids. */
  predicate Wf(s: Store) {
    && 0 <= s.sequence <= MaxInt64
    && forall id :: id in s.rows ==> 1 <= id <= s.sequence
  }

  function RowOf(t: Task): Row {
    Row(t.date, t.title, t.comment, t.repeat)
  }

  /** A row as `row.Scan` fills a `Task`: the integer id lands in the string field as decimal text. */
  function TaskOf(id: int, row: Row): Task {
    Task(IntToString(id), row.date, row.title, row.comment, row.repeat)
  }

  predicate IsMaxKey(keys: set<int>, m: int) {
    m in keys && forall k :: k in keys ==> k <= m
  }

  /**
   A set that is not empty has a member one can pick. Stated through an explicit
   `exists` so that a following `:|` has its witness without the verifier reasoning
   from `keys != {}` alone, which it reports as a contradictory assumption.
   */
  lemma HasMember(keys: set<int>)
    requires keys != {}
    ensures exists k :: k in keys
  {
    if forall k :: k !in keys {
      assert false;
    }
  }

  lemma {:induction false} MaxKeyExists(keys: set<int>)
    requires keys != {}
    ensures exists m :: IsMaxKey(keys, m)
    decreases keys
  {
    HasMember(keys);
    var x :| x in keys;
    if keys != {x} {
      var rest := keys - {x};
      MaxKeyExists(rest);
      var m :| IsMaxKey(rest, m);
      var top := if x <= m then m else x;
      forall k | k in keys
        ensures k <= top
      {
        if k != x {
          assert k in rest;
        }
      }
      assert IsMaxKey(keys, top);
    } else {
      assert IsMaxKey(keys, x);
    }
  }

  /** `SELECT MAX(id)` on a table that has rows. */
  function MaxKey(keys: set<int>): (m: int)
    requires keys != {}
    ensures IsMaxKey(keys, m)
  {
    MaxKeyExists(keys);
    var m :| IsMaxKey(keys, m);
    m
  }

  /** The id an AUTOINCREMENT insert takes: one past both the counter and every id present. */
  function NextRowId(s: Store): (id: int)
    ensures id > s.sequence && id !in s.rows
    ensures forall k :: k in s.rows ==> k < id
  {
    if s.rows == map[] then s.sequence + 1
    else
      var top := MaxKey(s.rows.Keys);
      (if top < s.sequence then s.sequence else top) + 1
  }

  /** A successful insert: the new table and the id `LastInsertId` reports. */
  datatype Inserted = Inserted(store: Store, id: int)

  /**
   `createTask`: insert the task's date, title, comment and repeat under a fresh id.
   Once the largest rowid has been used SQLite refuses with SQLITE_FULL.
   */
  function CreateTask(s: Store, t: Task): (r: Result<Inserted, Error>)
    ensures r.Err? ==> r.error == StoreFull
    ensures r.Ok? ==> var (s', id) := (r.value.store, r.value.id);
      && id !in s.rows && id <= MaxInt64
      && s'.rows.Keys == s.rows.Keys + {id}
      && s'.rows[id] == RowOf(t)
      && (forall k :: k in s.rows ==> s'.rows[k] == s.rows[k])
      && s'.sequence == id
    ensures Wf(s) ==> (r.Ok? <==> s.sequence < MaxInt64)
    ensures Wf(s) && r.Ok? ==> Wf(r.value.store)
  {
    var id := NextRowId(s);
    if id > MaxInt64 then Err(StoreFull)
    else
      assert Wf(s) ==> id == s.sequence + 1;
      Ok(Inserted(Store(s.rows[id := RowOf(t)], id), id))
  }

  /** `getTask`: the row with this id, or nothing when there is none. */
  function GetTask(s: Store, id: int): (r: Option<Task>)
    ensures r.Some? <==> id in s.rows
    ensures r.Some? ==> RowOf(r.value) == s.rows[id]
  {
    if id in s.rows then Some(TaskOf(id, s.rows[id])) else None
  }

  /** The id text `getTask` returns reads back, through `Atoi`, as the row's id. */
  lemma GetTaskIdRoundTrip(s: Store, id: int)
    requires Wf(s) && id in s.rows
    ensures Atoi(GetTask(s, id).value.id) == Some(id)
  {
    AtoiOfIntToString(id);
  }

  /**
   `editTask`: read `MAX(id)` (NULL on an empty table, which fails the scan), parse the
   task's id, refuse an id above the maximum, then overwrite the four mutable columns
   of the row with that id. An id at or below the maximum with no row is a successful
   update of nothing.
   */
  function EditTask(s: Store, t: Task): (r: Result<Store, Error>)
    ensures s.rows == map[] ==> r == Err(MaxIdNull)
    ensures s.rows != map[] && Atoi(t.id).None? ==> r == Err(InvalidId(t.id))
    ensures s.rows != map[] && Atoi(t.id).Some? ==>
      (r.Ok? <==> exists k :: k in s.rows && Atoi(t.id).value <= k)
    ensures r.Err? && s.rows != map[] && Atoi(t.id).Some? ==> r.error.IdAboveMax?
    ensures r.Ok? ==> var s' := r.value;
      && s'.sequence == s.sequence
      && s'.rows.Keys == s.rows.Keys
      && (forall k :: k in s.rows ==> s'.rows[k] == if Some(k) == Atoi(t.id) then RowOf(t) else s.rows[k])
  {
    if s.rows == map[] then Err(MaxIdNull)
    else match Atoi(t.id)
      case None => Err(InvalidId(t.id))
      case Some(id) =>
        var maxId := MaxKey(s.rows.Keys);
        if id > maxId then Err(IdAboveMax(id, maxId))
        else if id in s.rows then Ok(s.(rows := s.rows[id := RowOf(t)]))
        else Ok(s)
  }

  /** `deleteTask`: remove the row with this id, if there is one; never an error. */
  function DeleteTask(s: Store, id: int): (r: Store)
    ensures r.rows.Keys == s.rows.Keys - {id}
    ensures forall k :: k in r.rows ==> r.rows[k] == s.rows[k]
    ensures r.sequence == s.sequence
  {
    s.(rows := s.rows - {id})
  }

  /** What `doneTask` as written can come to, including the nil dereference on a missing id. */
  datatype DoneOutcome = Finished(store: Store) | DoneFailed(error: Error) | NilDereference

  /**
   `doneTask` exactly as written: `getTask` answers a missing id with a nil task, and
   the next statement reads `task.Repeat`, so the request panics.
   */
  function DoneTaskAsWritten(s: Store, id: int, today: string, nextDate: NextDateFn): (r: DoneOutcome)
    ensures r.NilDereference? <==> id !in s.rows
  {
    match GetTask(s, id)
    case None => NilDereference
    case Some(task) =>
      if |task.repeat| == 0 then Finished(DeleteTask(s, id))
      else match nextDate(today, task.date, task.repeat)
        case Err(message) => DoneFailed(RuleFailed(message))
        case Ok(next) => Finished(s.(rows := s.rows[id := s.rows[id].(date := next)]))
  }

  /**
   `doneTask` with the missing id reported as an error: a task without a rule is
   deleted, a recurring task moves to the calculator's next date.
   */
  function DoneTask(s: Store, id: int, today: string, nextDate: NextDateFn): (r: Result<Store, Error>)
    ensures id !in s.rows ==> r == Err(NoSuchTask(id))
    ensures r.Ok? ==> r.value.sequence == s.sequence && r.value.rows.Keys <= s.rows.Keys
  {
    match GetTask(s, id)
    case None => Err(NoSuchTask(id))
    case Some(task) =>
      if |task.repeat| == 0 then Ok(DeleteTask(s, id))
      else match nextDate(today, task.date, task.repeat)
        case Err(message) => Err(RuleFailed(message))
        case Ok(next) => Ok(s.(rows := s.rows[id := s.rows[id].(date := next)]))
  }

  /** Completing a task without a rule removes that row and nothing else. */
  lemma DoneWithoutRuleRemovesRow(s: Store, id: int, today: string, nextDate: NextDateFn)
    requires id in s.rows && s.rows[id].repeat == ""
    ensures var r := DoneTask(s, id, today, nextDate);
      && r.Ok?
      && r.value.rows.Keys == s.rows.Keys - {id}
      && (forall k :: k in r.value.rows ==> r.value.rows[k] == s.rows[k])
      && r.value.sequence == s.sequence
  {
  }

  /**
   Completing a recurring task sets only that row's date to the calculator's answer;
   when the calculator fails, the error is returned and nothing is written.
   */
  lemma DoneWithRuleRedates(s: Store, id: int, today: string, nextDate: NextDateFn)
    requires id in s.rows && s.rows[id].repeat != ""
    ensures var row := s.rows[id];
      var r := DoneTask(s, id, today, nextDate);
      match nextDate(today, row.date, row.repeat)
      case Err(message) => r == Err(RuleFailed(message))
      case Ok(next) =>
        && r.Ok?
        && r.value.rows.Keys == s.rows.Keys
        && r.value.rows[id] == Row(next, row.title, row.comment, row.repeat)
        && (forall k :: k in s.rows && k != id ==> r.value.rows[k] == s.rows[k])
        && r.value.sequence == s.sequence
  {
  }

  /** Wherever the code as written does not panic, the corrected `DoneTask` does the same thing. */
  lemma DoneTaskMatchesAsWritten(s: Store, id: int, today: string, nextDate: NextDateFn)
    ensures var w := DoneTaskAsWritten(s, id, today, nextDate);
      var r := DoneTask(s, id, today, nextDate);
      && (w.NilDereference? <==> r == Err(NoSuchTask(id)))
      && (w.Finished? <==> r.Ok?)
      && (w.Finished? ==> r.value == w.store)
      && (w.DoneFailed? ==> r == Err(w.error))
  {
  }

  /** On an empty table, completing id 1 panics in the code as written. */
  lemma DoneOnMissingIdPanics()
    ensures DoneTaskAsWritten(EmptyStore, 1, "20240615", (now, date, repeat) => Err("unused")) == NilDereference
    ensures DoneTask(EmptyStore, 1, "20240615", (now, date, repeat) => Err("unused")) == Err(NoSuchTask(1))
  {
  }

  /** Inserting a task and reading it back gives the task's fields under the new id. */
  lemma CreateThenGet(s: Store, t: Task)
    requires Wf(s) && CreateTask(s, t).Ok?
    ensures var ins := CreateTask(s, t).value;
      && GetTask(ins.store, ins.id) == Some(Task(IntToString(ins.id), t.date, t.title, t.comment, t.repeat))
      && Atoi(GetTask(ins.store, ins.id).value.id) == Some(ins.id)
  {
    var ins := CreateTask(s, t).value;
    GetTaskIdRoundTrip(ins.store, ins.id);
  }

  /** Deleting the row just inserted gives back the rows that were there before. */
  lemma CreateThenDelete(s: Store, t: Task)
    requires CreateTask(s, t).Ok?
    ensures var ins := CreateTask(s, t).value;
      DeleteTask(ins.store, ins.id).rows == s.rows
  {
    var ins := CreateTask(s, t).value;
    assert DeleteTask(ins.store, ins.id).rows.Keys == s.rows.Keys;
  }

  /** Deleting an id that is not there, or deleting twice, changes nothing. */
  lemma DeleteAbsentIsNoOp(s: Store, id: int)
    ensures id !in s.rows ==> DeleteTask(s, id) == s
    ensures DeleteTask(DeleteTask(s, id), id) == DeleteTask(s, id)
  {
    if id !in s.rows {
      assert DeleteTask(s, id).rows == s.rows;
    }
    assert DeleteTask(DeleteTask(s, id), id).rows == DeleteTask(s, id).rows;
  }

  /** Editing a row and reading it back gives the edited fields under the same id. */
  lemma EditThenGet(s: Store, t: Task, id: int)
    requires Atoi(t.id) == Some(id) && id in s.rows
    ensures EditTask(s, t).Ok?
    ensures GetTask(EditTask(s, t).value, id) == Some(Task(IntToString(id), t.date, t.title, t.comment, t.repeat))
  {
  }

  /** Every store operation keeps the table's AUTOINCREMENT invariant. */
  lemma OperationsPreserveWf(s: Store, t: Task, id: int, today: string, nextDate: NextDateFn)
    requires Wf(s)
    ensures CreateTask(s, t).Ok? ==> Wf(CreateTask(s, t).value.store)
    ensures EditTask(s, t).Ok? ==> Wf(EditTask(s, t).value)
    ensures Wf(DeleteTask(s, id))
    ensures DoneTask(s, id, today, nextDate).Ok? ==> Wf(DoneTask(s, id, today, nextDate).value)
  {
  }
}

=== FILE: string_order.dfy ===
/**
 SQLite's BINARY collation on the stored date text, behind `ORDER BY date` (byte
 order on the UTF-8 encoding, which is the same as code-point order, so the same
 as the order on characters used here).
 `Dates.BeforeIsStringOrder` shows that on valid dates it agrees with `Time.Before`.
 */
module StringOrder {
  import opened Decimal

  /** Strict lexicographic order: a proper prefix comes first. */
  predicate Less(a: string, b: string)
    decreases |a|
  {
    if |a| == 0 then |b| > 0
    else if |b| == 0 then false
    else if a[0] != b[0] then a[0] < b[0]
    else Less(a[1..], b[1..])
  }

  predicate LessEq(a: string, b: string) {
    a == b || Less(a, b)
  }

  lemma {:induction false} LessIrreflexive(a: string)
    ensures !Less(a, a)
  {
    if |a| > 0 {
      LessIrreflexive(a[1..]);
    }
  }

  lemma {:induction false} LessTransitive(a: string, b: string, c: string)
    requires Less(a, b) && Less(b, c)
    ensures Less(a, c)
    decreases |a|
  {
    if |a| > 0 && a[0] == b[0] && b[0] == c[0] {
      LessTransitive(a[1..], b[1..], c[1..]);
    }
  }

  /** Any two strings are equal or ordered one way or the other. */
  lemma {:induction false} LessTrichotomy(a: string, b: string)
    ensures Less(a, b) || a == b || Less(b, a)
    decreases |a|
  {
    if |a| > 0 && |b| > 0 && a[0] == b[0] {
      LessTrichotomy(a[1..], b[1..]);
      if a[1..] == b[1..] {
        assert a == [a[0]] + a[1..] && b == [b[0]] + b[1..];
      }
    }
  }

  lemma LessAsymmetric(a: string, b: string)
    requires Less(a, b)
    ensures !Less(b, a)
  {
    if Less(b, a) {
      LessTransitive(a, b, a);
      LessIrreflexive(a);
    }
  }

  /** Comparing two strings split at the same length compares the heads, then the tails. */
  lemma {:induction false} LessConcat(a1: string, a2: string, b1: string, b2: string)
    requires |a1| == |b1|
    ensures Less(a1 + a2, b1 + b2) <==> Less(a1, b1) || (a1 == b1 && Less(a2, b2))
    decreases |a1|
  {
    if |a1| > 0 {
      assert (a1 + a2)[1..] == a1[1..] + a2;
      assert (b1 + b2)[1..] == b1[1..] + b2;
      LessConcat(a1[1..], a2, b1[1..], b2);
      if a1[0] == b1[0] && a1[1..] == b1[1..] {
        assert a1 == [a1[0]] + a1[1..] && b1 == [b1[0]] + b1[1..];
      }
    } else {
      assert a1 + a2 == a2 && b1 + b2 == b2;
    }
  }

  /** On digit strings of one length, the string order is the numeric order. */
  lemma {:induction false} LessDigits(a: string, b: string)
    requires |a| == |b| && AllDigits(a) && AllDigits(b)
    ensures Less(a, b) <==> Value(a) < Value(b)
    decreases |a|
  {
    if |a| > 0 {
      var a', b' := a[..|a| - 1], b[..|b| - 1];
      var x, y := a[|a| - 1], b[|b| - 1];
      assert a == a' + [x] && b == b' + [y];
      LessConcat(a', [x], b', [y]);
      assert Less([x], [y]) <==> x < y;
      LessDigits(a', b');
      LessDigits(b', a');
      LessTrichotomy(a', b');
      LessIrreflexive(a');
      assert Value(a) == 10 * Value(a') + DigitValue(x);
      assert Value(b) == 10 * Value(b') + DigitValue(y);
    }
  }

  /** On digit strings of one length, equal values mean equal strings. */
  lemma DigitsEqual(a: string, b: string)
    requires |a| == |b| && AllDigits(a) && AllDigits(b)
    ensures a == b <==> Value(a) == Value(b)
  {
    LessDigits(a, b);
    LessDigits(b, a);
    LessTrichotomy(a, b);
  }
}

=== FILE: tasks.dfy ===
/**
 The task record and its date rules (main.go): `IsValid` and `SetDate`. The wall
 clock becomes the explicit `today`, and the recurrence calculator `NextDate`, whose
 source is not part of this model, becomes the parameter `nextDate`.
 */
module Tasks {
  import opened Results
  import opened Dates
  import StringOrder

  /** A task as the handlers see it; `id` is text, as in the JSON body. */
  datatype Task = Task(id: string, date: string, title: string, comment: string, repeat: string)

  /**
   `NextDate(now, date, repeat)`: the next occurrence of a recurring task after `now`,
   or an error message. Its rules are not modelled; callers receive it as a parameter.
   */
  type NextDateFn = (string, string, string) -> Result<string, string>

  /** Why an operation stopped; the handlers turn each into a JSON error response. */
  datatype Error =
    | NoTitle                          // IsValid: "no title"
    | UnparsableDate(date: string)     // time.Parse rejected the date
    | RuleFailed(message: string)      // NextDate's own error text, passed through
    | MaxIdNull                        // SELECT MAX(id) on an empty table yields NULL, which does not scan into an int
    | InvalidId(text: string)          // strconv.Atoi rejected the id
    | IdAboveMax(id: int, maxId: int)  // "Given ID is greater than max DB ID"
    | StoreFull                        // AUTOINCREMENT has used the largest rowid
    | NoSuchTask(id: int)              // no row with this id

  /** `IsValid`: the `(bool, string)` pair the handlers test before anything else. */
  function IsValid(t: Task): (r: (bool, string))
    ensures r == (false, "no title") <==> t.title == ""
    ensures r == (true, "") <==> t.title != ""
  {
    if |t.title| == 0 then (false, "no title") else (true, "")
  }

  /** What `SetDate` reports: success with its message, or the error. */
  datatype Outcome = Success(message: string) | Failure(error: Error)

  /** `SetDate`'s result: the outcome and the task it leaves behind. */
  datatype DateResult = DateResult(outcome: Outcome, task: Task)

  /**
   `SetDate`: an empty date becomes today; a date that does not parse is an error; a
   date before today becomes today when the task does not repeat, and the next
   occurrence when it does; any other date is left alone.
   */
  function SetDate(t: Task, today: string, nextDate: NextDateFn): (r: DateResult)
    requires ValidDate(today)
    ensures r.task == t.(date := r.task.date)
    ensures r.outcome.Failure? ==> r.task == t
  {
    if |t.date| == 0 then DateResult(Success(""), t.(date := today))
    else match ParseDate(t.date)
      case None => DateResult(Failure(UnparsableDate(t.date)), t)
      case Some(date) =>
        if CalendarBefore(date, ParseDate(today).value) then
          if |t.repeat| == 0 then DateResult(Success(today), t.(date := today))
          else match nextDate(today, t.date, t.repeat)
            case Err(message) => DateResult(Failure(RuleFailed(message)), t)
            case Ok(next) => DateResult(Success(""), t.(date := next))
        else DateResult(Success(""), t)
  }

  /** The calculator kept its promise for this call: its date parses and is not before today. */
  predicate LandsOnOrAfter(next: Result<string, string>, today: string) {
    next.Ok? ==> ValidDate(next.value) && !StringOrder.Less(next.value, today)
  }

  /** `SetDate` calls the calculator exactly for a recurring task with a valid past date. */
  predicate AsksCalculator(t: Task, today: string) {
    t.repeat != "" && ValidDate(t.date) && StringOrder.Less(t.date, today)
  }

  lemma SetDateEmptyDate(t: Task, today: string, nextDate: NextDateFn)
    requires ValidDate(today) && t.date == ""
    ensures SetDate(t, today, nextDate) == DateResult(Success(""), t.(date := today))
  {
  }

  lemma SetDateRejectsUnparsable(t: Task, today: string, nextDate: NextDateFn)
    requires ValidDate(today) && t.date != "" && !ValidDate(t.date)
    ensures SetDate(t, today, nextDate) == DateResult(Failure(UnparsableDate(t.date)), t)
  {
  }

  /** A date on or after today, compared as text, is left exactly as it is. */
  lemma SetDateKeepsCurrentDate(t: Task, today: string, nextDate: NextDateFn)
    requires ValidDate(today) && ValidDate(t.date) && !StringOrder.Less(t.date, today)
    ensures SetDate(t, today, nextDate) == DateResult(Success(""), t)
  {
    BeforeIsStringOrder(t.date, today);
  }

  /** A past date without a rule becomes today, and today is also the returned message. */
  lemma SetDatePastWithoutRule(t: Task, today: string, nextDate: NextDateFn)
    requires ValidDate(today) && ValidDate(t.date) && StringOrder.Less(t.date, today)
    requires t.repeat == ""
    ensures SetDate(t, today, nextDate) == DateResult(Success(today), t.(date := today))
  {
    BeforeIsStringOrder(t.date, today);
  }

  /** A past date with a rule takes the calculator's answer, or fails with its error. */
  lemma SetDatePastWithRule(t: Task, today: string, nextDate: NextDateFn)
    requires ValidDate(today) && ValidDate(t.date) && StringOrder.Less(t.date, today)
    requires t.repeat != ""
    ensures var r := SetDate(t, today, nextDate);
      match nextDate(today, t.date, t.repeat)
      case Err(message) => r == DateResult(Failure(RuleFailed(message)), t)
      case Ok(next) => r == DateResult(Success(""), t.(date := next))
  {
    BeforeIsStringOrder(t.date, today);
  }

  /** `SetDate` fails exactly on an unparsable date, or on a past recurring date the calculator rejects. */
  lemma SetDateFailsIff(t: Task, today: string, nextDate: NextDateFn)
    requires ValidDate(today)
    ensures SetDate(t, today, nextDate).outcome.Failure? <==>
      || (t.date != "" && !ValidDate(t.date))
      || (ValidDate(t.date) && StringOrder.Less(t.date, today) && t.repeat != ""
          && nextDate(today, t.date, t.repeat).Err?)
  {
    if ValidDate(t.date) {
      BeforeIsStringOrder(t.date, today);
    }
  }

  /**
   After a successful `SetDate` the task is due today or later, provided the
   calculator's answer, when `SetDate` asks for one, is itself such a date.
   */
  lemma SetDateLeavesPendingDate(t: Task, today: string, nextDate: NextDateFn)
    requires ValidDate(today)
    requires AsksCalculator(t, today) ==> LandsOnOrAfter(nextDate(today, t.date, t.repeat), today)
    ensures var r := SetDate(t, today, nextDate);
      r.outcome.Success? ==> ValidDate(r.task.date) && !StringOrder.Less(r.task.date, today)
  {
    StringOrder.LessIrreflexive(today);
    if ValidDate(t.date) {
      BeforeIsStringOrder(t.date, today);
    }
  }

  /**
   A second `SetDate` with the same today changes nothing and reports plain success.
   When the calculator is not asked this holds unconditionally; when it is, its
   answer must not lie in the past.
   */
  lemma SetDateIdempotent(t: Task, today: string, nextDate: NextDateFn)
    requires ValidDate(today)
    requires AsksCalculator(t, today) ==> LandsOnOrAfter(nextDate(today, t.date, t.repeat), today)
    requires SetDate(t, today, nextDate).outcome.Success?
    ensures var once := SetDate(t, today, nextDate).task;
      SetDate(once, today, nextDate) == DateResult(Success(""), once)
  {
    var once := SetDate(t, today, nextDate).task;
    SetDateLeavesPendingDate(t, today, nextDate);
    SetDateKeepsCurrentDate(once, today, nextDate);
  }

  /**
   For any calculator, a task `SetDate` does not send to it (an undated task, a
   one-off task, or a date not in the past) is settled by one call.
   */
  lemma SetDateIdempotentWithoutCalculator(t: Task, today: string, nextDate: NextDateFn)
    requires ValidDate(today) && !AsksCalculator(t, today)
    requires SetDate(t, today, nextDate).outcome.Success?
    ensures var once := SetDate(t, today, nextDate).task;
      SetDate(once, today, nextDate) == DateResult(Success(""), once)
  {
    SetDateIdempotent(t, today, nextDate);
  }
}
